=== FILE: README.md ===
# Server-event dispatch in bevy_replicon, modelled in Dafny

This project models how bevy_replicon delivers server events, that is, events the
server sends to clients. The server queues `ToClients<T>` envelopes. Each envelope
holds a payload and a `SendMode`: `Broadcast`, `BroadcastExcept(client)` or
`Direct(client)`. The model covers three parts:

- **Routing.** For each envelope, the sending system serializes the payload once
  and picks one transport call: broadcast, broadcast-except, send, or no call.
  The local-resending system then decides whether to re-emit the payload as a
  local event for the authority's own session. `SERVER_ID` identifies that
  session.
- **Loop-back drain.** The local-resending system drains the queue. It emits the
  payloads that target the local session, in queue order.
- **Receive pipeline.** On the client, each of the four receiving systems drains
  the event's channel in order. It decodes each message into one event. The
  mapped variants then translate entity references once. A failure aborts the
  pass.

Modules:

- `Wrappers`: `Option` and `Result`.
- `Seqs`: order-preserving filter and map, with their lemmas.
- `SendModes`: `SendMode`, `ToClients`, the routing decision, and the documented
  meaning of each mode (`Intended`).
- `Sending`: the plain and reflect sending systems, with the transport modelled
  as a recorded list of transmissions.
- `LocalResending`: the loop-back drain.
- `Receiving`: the four receiving systems and the drain loop they share.
- `ServerSend`: the two chained send-side systems under their run conditions,
  plus a theorem covering both systems: what is handed to renet for each client, and what is emitted locally.

The external collaborators become parameters:

- bincode serialization and the registry-driven serializers are partial
  functions that return `Option<Bytes>`;
- decoding and the entity map are partial functions that return `Option`;
- the type registry is an opaque value;
- the run conditions are booleans.

A panic (`expect`, or `unwrap_or_else` with `panic!`) is modelled as a
`Failure` that records the kind of failure and the index of the offending item.

### Behaviour worth knowing

- Only the payload is serialized (server_event.rs:244, 281-282). The mode never
  goes on the wire; routing happens entirely on the server.
- A payload is serialized before its mode is examined. So an envelope
  `Direct(SERVER_ID)` whose payload cannot be serialized still aborts the
  sending pass, even though that envelope never reaches the network.
- `Broadcast` always loops back locally. Only `BroadcastExcept(SERVER_ID)`
  suppresses local emission of a broadcast (server_event.rs:315-324).
- A `Direct(c)` sent to a client that is not connected reaches nobody. This is
  an assumption about the transport, which is not part of this model.

## Model

| member | source | states |
|---|---|---|
| SendModes.Route | src/network_event/server_event.rs:246-265 | Each network action can be traced back to the mode that produced it. There is no call exactly for Direct(SERVER_ID). A plain broadcast comes exactly from Broadcast or BroadcastExcept(SERVER_ID). Broadcast-except c comes exactly from BroadcastExcept(c) with c ≠ SERVER_ID. A send to c comes exactly from Direct(c) with c ≠ SERVER_ID. |
| SendModes.Decide | src/network_event/server_event.rs:246-332 | Broadcast: a network broadcast plus local emission. BroadcastExcept(SERVER_ID): a plain broadcast with no local emission. BroadcastExcept(c) with c ≠ SERVER_ID: broadcast-except c plus local emission. Direct(SERVER_ID): no network call, local emission only. Direct(c) with c ≠ SERVER_ID: a send to c only. The network never targets or excludes SERVER_ID. |
| SendModes.LoopsBack | src/network_event/server_event.rs:313-332 | The payload is emitted locally exactly when the documented meaning of the mode includes the local session. |
| SendModes.Receptions | src/network_event/server_event.rs:243-332 | Counting network and local receptions together, when SERVER_ID is not a remote client: each party in the mode's documented audience is reached exactly once, and nobody else is reached. |
| SendModes.Reached | src/lib.rs:275-280 | The parties reached equal the documented audience. Broadcast reaches every client plus the local session. BroadcastExcept(c) reaches everyone but c. Direct(c) reaches exactly {c} when c is a party. |
| Sending.SendingSystem | src/network_event/server_event.rs:238-267 | The pass succeeds exactly when every payload serializes, including payloads that are never sent. A failure names the first unserializable envelope. Every transmission is on the event's channel and is a real call. There are no more transmissions than envelopes. |
| Sending.SentInQueueOrder | src/network_event/server_event.rs:243-265 | The transmissions are exactly the networked envelopes, in queue order. Each one carries that envelope's route and its single serialization. |
| Sending.SendingReflectSystem | src/network_event/server_event.rs:269-305 | The reflect pass succeeds exactly when the serializer built from the registry accepts every payload, including payloads that are never sent. A failure names the first envelope it rejects. Every transmission is a real call on the event's channel. There are no more transmissions than envelopes. |
| Sending.ReflectSendsLikePlain | src/network_event/server_event.rs:269-305 | The reflect sending system equals the plain one whose serializer is the one built from the registry. |
| Sending.SendPathsAgree | src/network_event/server_event.rs:280-304 | The plain and reflect paths issue the same sequence of network actions, which is the route of each networked envelope in order. |
| Sending.InboxOfClient | src/network_event/server_event.rs:243-265 | The sending pass hands renet, for client c, the serialized bytes of exactly the envelopes whose action reaches c, once each and in queue order. |
| LocalResending.LocalResendingSystem | src/network_event/server_event.rs:309-333 | The drain consumes the whole queue, leaving it empty. It emits exactly the payloads whose mode targets the local session, in queue order. |
| LocalResending.LoopedBackSnoc | src/network_event/server_event.rs:313-332 | Appending one envelope appends its payload to the loop-back output exactly when its mode targets the local session. |
| LocalResending.LoopedBackCount | src/network_event/server_event.rs:313-332 | Every payload value v is emitted exactly as many times as there are queued envelopes that target the local session and carry v. Targeted envelopes keep their multiplicity through the filter, and non-targeted ones are dropped. |
| LocalResending.LoopedBackInOrder | src/network_event/server_event.rs:313-332 | The emitted events are a subsequence of the queued payloads, so queue order is kept. |
| Receiving.Receive | src/network_event/server_event.rs:158-162 | The pass succeeds exactly when every message processes, and then yields one event per message in message order. A failure is that of the first failing message. |
| Receiving.ReceivingSystem | src/network_event/server_event.rs:153-163 | Each message decodes to exactly the event at its position. The pass fails with a decode error exactly when some message does not decode. |
| Receiving.ReceivingAndMappingSystem | src/network_event/server_event.rs:165-180 | Each emitted event is the mapped form of its message's decoded event. The pass fails when a message does not decode, or when its decoded event does not map. |
| Receiving.ReceivingReflectSystem | src/network_event/server_event.rs:182-206 | The same as the plain system, but decoding uses the deserializer built from the registry. |
| Receiving.ReceivingAndMappingReflectSystem | src/network_event/server_event.rs:208-236 | The same as the mapped system, but decoding uses the deserializer built from the registry. |
| Receiving.MapEachPointwise | src/network_event/server_event.rs:175-177 | Translating the entities of a list of events succeeds exactly when each event translates, and then translates each event once, position by position. |
| Receiving.MapsOnceAfterDecode | src/network_event/server_event.rs:171-178 | The mapped pipeline equals the plain pipeline followed by one translation of each decoded event. It delivers events only when both stages succeed for every message. |
| Receiving.DrainChannel | src/network_event/server_event.rs:158-162 | The shared receive loop runs only when the client is connected. It computes the pipeline's result. On success it empties the channel. On failure it stops right after the offending message. |
| ServerSend.SendSet | src/network_event/server_event.rs:139-147 | Sending runs only when the server resource exists. Loop-back runs only with authority and after a successful send pass. Without authority the queue is left untouched and nothing is emitted locally. |
| ServerSend.RemoteReachedAsIntended | src/network_event/server_event.rs:246-265 | A connected remote client is reached by the network action exactly when the mode's documented audience includes it. |
| ServerSend.EveryPartyGetsItsEvents | src/network_event/server_event.rs:243-332 | For each connected client, the sending pass hands renet the bytes of exactly the envelopes whose audience includes it, in order and once each. The local session is emitted exactly the payloads whose audience includes it, in order. |

## Left out

- Plugin and schedule wiring in `add_server_event_with` and its wrappers (server_event.rs:68-150), such as system sets, resource insertion and channel allocation. Only the run conditions are kept, as booleans: the server resource exists, the app has authority, and the client is connected.
- The value of `SERVER_ID`. It is defined in the server module, which is not part of this model, so it is an uninitialised constant and every result holds for any value.
- bincode and serde encoding, the `DefaultOptions` configuration, and the registry-driven builders `BuildEventSerializer` and `BuildEventDeserializer`. These are foreign libraries, modelled as opaque partial functions. No byte-level round trip is claimed.
- The renet transport. It is modelled only as the recorded list of transmissions and the input sequence of messages.
- `SendModes.Delivered` is an assumption about renet, not behaviour of this code. It says a broadcast reaches every connected client. It says a broadcast-except reaches all connected clients but the excluded one. It says a send reaches its target only if that client is connected, and no call reaches nobody. The recipient results (`SendModes.Reached`, `SendModes.Receptions`, `Sending.InboxOfClient`, `ServerSend.RemoteReachedAsIntended`, `ServerSend.EveryPartyGetsItsEvents`) rest on it.
- `Sending.Inbox` is the list of messages handed to renet for a client, in call order, not what that client receives. The channel policy chosen at registration (server_event.rs:26, 121-128) decides reliability and ordering, and that code is not part of this model. `Inbox` therefore treats every channel as reliable and ordered. Loss on unreliable channels and reordering on unordered ones are not modelled.
- `NetworkEntityMap` and `MapEventEntities` internals. Entity mapping is an abstract `T -> Option<T>`.
- Envelopes that stay queued across frames. Without authority, this pass does not drain the `ToClients<T>` queue. Nothing in this code clears that queue: it is registered with `init_resource` (server_event.rs:131), not `add_event`, and only the `drain()` at line 313 empties it. So the envelopes stay queued across frames, and the sending system's reader does not re-read them. The model covers one pass only; it models neither the queue persisting across frames nor the reader's cursor.
- Effects that happen before a panic in the same pass, on both sides. A receiving system may already have written events before it panics, and the model returns no partial event list. When serialization fails for envelope i, the sending system has already made the transport calls for envelopes 0 to i-1. The model returns `Failure(SerializeFailed(i))` and records none of those calls. The panic ends the app, so none of these partial effects is observed afterwards.
- `debug!` logging.
- The snapshot differ, the acknowledgment tracker, the client identity map and the client-to-server events. They live in files that are not part of this model.

=== FILE: local_resending.dfy ===
/** The local-resending system: drains the `ToClients<T>` queue and re-emits,
    as plain local `T` events, the payloads whose mode targets the authority's
    own session ("offline mode" or a server that is also a player). */
module LocalResending {
  import opened Seqs
  import opened SendModes

  /** Whether the envelope's mode targets the local session. */
  predicate TargetsLocal<T>(env: ToClients<T>)
  {
    LoopsBack(env.mode)
  }

  /** The payload carried by an envelope. */
  function Payload<T>(env: ToClients<T>): T
  {
    env.event
  }

  /** Reference definition: the payloads of the envelopes that target the local
      session, in queue order. */
  function LoopedBack<T>(queue: seq<ToClients<T>>): seq<T>
  {
    Map(Filter(queue, TargetsLocal), Payload)
  }

  /** Appending one envelope to the queue appends its payload to the loop-back
      output exactly when it targets the local session. */
  lemma LoopedBackSnoc<T>(queue: seq<ToClients<T>>, env: ToClients<T>)
    ensures LoopedBack(queue + [env])
            == LoopedBack(queue) + (if TargetsLocal(env) then [env.event] else [])
  {
    FilterConcat(queue, [env], TargetsLocal);
    assert Filter([env], TargetsLocal) == (if TargetsLocal(env) then [env] else []) + Filter([env][1..], TargetsLocal);
    MapConcat(Filter(queue, TargetsLocal), Filter([env], TargetsLocal), Payload);
  }

  /** The drain loop: every queued envelope is consumed, in order, and the ones
      that target the local session are emitted as local events. */
  method LocalResendingSystem<T>(queue: seq<ToClients<T>>) returns (emitted: seq<T>, remaining: seq<ToClients<T>>)
    ensures remaining == []
    ensures emitted == LoopedBack(queue)
  {
    emitted := [];
    remaining := queue;
    while |remaining| > 0
      invariant |remaining| <= |queue|
      invariant remaining == queue[|queue| - |remaining|..]
      invariant emitted == LoopedBack(queue[..|queue| - |remaining|])
      decreases |remaining|
    {
      var consumed := |queue| - |remaining|;
      var env := remaining[0];
      remaining := remaining[1..];
      match env.mode {
        case Broadcast =>
          emitted := emitted + [env.event];
        case BroadcastExcept(c) =>
          if c != SERVER_ID {
            emitted := emitted + [env.event];
          }
        case Direct(c) =>
          if c == SERVER_ID {
            emitted := emitted + [env.event];
          }
      }
      assert queue[..consumed + 1] == queue[..consumed] + [env];
      LoopedBackSnoc(queue[..consumed], env);
    }
    assert queue[..|queue|] == queue;
  }

  /** Nothing but the targeted payloads is emitted, and each targeted envelope
      is emitted exactly as many times as it was queued. */
  lemma LoopedBackCount<T>(queue: seq<ToClients<T>>, env: ToClients<T>)
    ensures multiset(Filter(queue, TargetsLocal))[env]
            == if LoopsBack(env.mode) then multiset(queue)[env] else 0
    ensures |LoopedBack(queue)| == |Filter(queue, TargetsLocal)| <= |queue|
    ensures multiset(LoopedBack(queue))[env.event]
            == |Filter(queue, (e: ToClients<T>) => TargetsLocal(e) && e.event == env.event)|
  {
    FilterCount(queue, TargetsLocal, env);
    EmittedCount(queue, env.event);
  }

  /** A payload value is emitted once per queued envelope that targets the
      local session and carries it. */
  lemma {:induction false} EmittedCount<T>(queue: seq<ToClients<T>>, v: T)
    ensures multiset(LoopedBack(queue))[v]
            == |Filter(queue, (e: ToClients<T>) => TargetsLocal(e) && e.event == v)|
    decreases |queue|
  {
    var carries := (e: ToClients<T>) => TargetsLocal(e) && e.event == v;
    if |queue| != 0 {
      EmittedCount(queue[1..], v);
      var head := if TargetsLocal(queue[0]) then [queue[0]] else [];
      assert Filter(queue, TargetsLocal) == head + Filter(queue[1..], TargetsLocal);
      MapConcat(head, Filter(queue[1..], TargetsLocal), Payload);
      assert LoopedBack(queue) == Map(head, Payload) + LoopedBack(queue[1..]);
      assert Filter(queue, carries)
             == (if carries(queue[0]) then [queue[0]] else []) + Filter(queue[1..], carries);
    }
  }

  /** The emitted events keep the queue's order: they form a subsequence of the
      queued payloads. */
  lemma {:induction false} LoopedBackInOrder<T>(queue: seq<ToClients<T>>)
    ensures IsSubsequence(LoopedBack(queue), Map(queue, Payload))
    decreases |queue|
  {
    FilterIsSubsequence(queue, TargetsLocal);
    MapKeepsSubsequence(Filter(queue, TargetsLocal), queue, Payload);
  }
}

=== FILE: receiving.dfy ===
/** The client-side receiving systems: messages are drained from the event's
    channel in arrival order, each is decoded into one event, mapped variants
    translate entity references once, and the event is emitted. A decode or
    mapping failure panics. */
module Receiving {
  import opened Wrappers
  import opened Sending

  /** Why a receiving system aborted, and at which message. */
  datatype ReceiveError = DecodeFailed(index: nat) | MapFailed(index: nat)

  /** Processing of the message at position `index`: decode it, then, in the
      mapped variants, translate its entity references exactly once. */
  function Process<T>(decode: Bytes -> Option<T>, mapEntities: Option<T -> Option<T>>,
                      message: Bytes, index: nat): (r: Result<T, ReceiveError>)
    ensures r.Failure? ==> r.error.index == index
    ensures decode(message).None? ==> r == Failure(DecodeFailed(index))
    ensures decode(message).Some? && mapEntities.None? ==> r == Success(decode(message).value)
    ensures decode(message).Some? && mapEntities.Some? ==>
              r == match mapEntities.value(decode(message).value)
                   case None => Failure(MapFailed(index))
                   case Some(e) => Success(e)
  {
    match decode(message)
    case None => Failure(DecodeFailed(index))
    case Some(event) =>
      match mapEntities
      case None => Success(event)
      case Some(f) =>
        match f(event)
        case None => Failure(MapFailed(index))
        case Some(mapped) => Success(mapped)
  }

  /** The events emitted after draining `messages`, one loop iteration per
      message, or the first failure. */
  function Receive<T>(messages: seq<Bytes>, decode: Bytes -> Option<T>,
                      mapEntities: Option<T -> Option<T>>): (r: Result<seq<T>, ReceiveError>)
    // success exactly when every message processes
    ensures r.Success? <==>
              forall i :: 0 <= i < |messages| ==> Process(decode, mapEntities, messages[i], i).Success?
    // one event per message, in message order
    ensures r.Success? ==>
              && |r.value| == |messages|
              && forall i :: 0 <= i < |messages| ==>
                   Process(decode, mapEntities, messages[i], i) == Success(r.value[i])
    // the failure reported is that of the first message that does not process
    ensures r.Failure? ==>
              && r.error.index < |messages|
              && Process(decode, mapEntities, messages[r.error.index], r.error.index) == Failure(r.error)
              && forall i :: 0 <= i < r.error.index ==> Process(decode, mapEntities, messages[i], i).Success?
    decreases |messages|
  {
    if |messages| == 0 then Success([])
    else
      var last := |messages| - 1;
      match Receive(messages[..last], decode, mapEntities)
      case Failure(e) => Failure(e)
      case Success(events) =>
        match Process(decode, mapEntities, messages[last], last)
        case Failure(e) => Failure(e)
        case Success(event) => Success(events + [event])
  }

  /** `receiving_system`: bincode-decode each message and emit it. */
  function ReceivingSystem<T>(messages: seq<Bytes>, decode: Bytes -> Option<T>): (r: Result<seq<T>, ReceiveError>)
    ensures r.Success? <==> forall i :: 0 <= i < |messages| ==> decode(messages[i]).Some?
    ensures r.Success? ==>
              && |r.value| == |messages|
              && forall i :: 0 <= i < |messages| ==> decode(messages[i]) == Some(r.value[i])
    ensures r.Failure? ==>
              && r.error.DecodeFailed?
              && r.error.index < |messages|
              && decode(messages[r.error.index]).None?
  {
    Receive(messages, decode, None)
  }

  /** `receiving_and_mapping_system`: decode each message, translate its
      entities to client entities, and emit it. */
  function ReceivingAndMappingSystem<T>(messages: seq<Bytes>, decode: Bytes -> Option<T>,
                                        mapEntities: T -> Option<T>): (r: Result<seq<T>, ReceiveError>)
    ensures r.Success? <==>
              forall i :: 0 <= i < |messages| ==>
                decode(messages[i]).Some? && mapEntities(decode(messages[i]).value).Some?
    ensures r.Success? ==>
              && |r.value| == |messages|
              && forall i :: 0 <= i < |messages| ==>
                   decode(messages[i]).Some? && mapEntities(decode(messages[i]).value) == Some(r.value[i])
    ensures r.Failure? && r.error.DecodeFailed? ==>
              r.error.index < |messages| && decode(messages[r.error.index]).None?
    ensures r.Failure? && r.error.MapFailed? ==>
              && r.error.index < |messages|
              && decode(messages[r.error.index]).Some?
              && mapEntities(decode(messages[r.error.index]).value).None?
  {
    Receive(messages, decode, Some(mapEntities))
  }

  /** `receiving_reflect_system`: each message is decoded by a deserializer
      built from the type registry. */
  function ReceivingReflectSystem<T, R>(messages: seq<Bytes>, registry: R,
                                        deserialize: (Bytes, R) -> Option<T>): (r: Result<seq<T>, ReceiveError>)
    ensures r.Success? <==> forall i :: 0 <= i < |messages| ==> deserialize(messages[i], registry).Some?
    ensures r.Success? ==>
              && |r.value| == |messages|
              && forall i :: 0 <= i < |messages| ==> deserialize(messages[i], registry) == Some(r.value[i])
    ensures r.Failure? ==>
              && r.error.DecodeFailed?
              && r.error.index < |messages|
              && deserialize(messages[r.error.index], registry).None?
  {
    ReceivingSystem(messages, m => deserialize(m, registry))
  }

  /** `receiving_and_mapping_reflect_system`: registry-driven decode, then
      entity translation, then emit. */
  function ReceivingAndMappingReflectSystem<T, R>(messages: seq<Bytes>, registry: R,
                                                  deserialize: (Bytes, R) -> Option<T>,
                                                  mapEntities: T -> Option<T>): (r: Result<seq<T>, ReceiveError>)
    ensures r.Success? <==>
              forall i :: 0 <= i < |messages| ==>
                deserialize(messages[i], registry).Some?
                && mapEntities(deserialize(messages[i], registry).value).Some?
    ensures r.Success? ==>
              && |r.value| == |messages|
              && forall i :: 0 <= i < |messages| ==>
                   deserialize(messages[i], registry).Some?
                   && mapEntities(deserialize(messages[i], registry).value) == Some(r.value[i])
    ensures r.Failure? && r.error.DecodeFailed? ==>
              r.error.index < |messages| && deserialize(messages[r.error.index], registry).None?
    ensures r.Failure? && r.error.MapFailed? ==>
              && r.error.index < |messages|
              && deserialize(messages[r.error.index], registry).Some?
              && mapEntities(deserialize(messages[r.error.index], registry).value).None?
  {
    ReceivingAndMappingSystem(messages, m => deserialize(m, registry), mapEntities)
  }

  /** Entity translation applied to each decoded event, in order. */
  function MapEach<T>(events: seq<T>, mapEntities: T -> Option<T>): Option<seq<T>>
    decreases |events|
  {
    if |events| == 0 then Some([])
    else
      match mapEntities(events[0])
      case None => None
      case Some(mapped) =>
        match MapEach(events[1..], mapEntities)
        case None => None
        case Some(rest) => Some([mapped] + rest)
  }

  /** MapEach succeeds exactly when every event maps, and then maps each
      event once, position by position. */
  lemma {:induction false} MapEachPointwise<T>(events: seq<T>, mapEntities: T -> Option<T>)
    ensures MapEach(events, mapEntities).Some? <==>
              forall i :: 0 <= i < |events| ==> mapEntities(events[i]).Some?
    ensures MapEach(events, mapEntities).Some? ==>
              && |MapEach(events, mapEntities).value| == |events|
              && forall i :: 0 <= i < |events| ==>
                   mapEntities(events[i]) == Some(MapEach(events, mapEntities).value[i])
    decreases |events|
  {
    if |events| != 0 {
      MapEachPointwise(events[1..], mapEntities);
      if MapEach(events, mapEntities).Some? {
        var out := MapEach(events, mapEntities).value;
        forall i | 0 <= i < |events|
          ensures mapEntities(events[i]) == Some(out[i])
        {
          if i > 0 {
            assert events[i] == events[1..][i - 1];
          }
        }
      } else if mapEntities(events[0]).Some? {
        var i :| 0 <= i < |events[1..]| && mapEntities(events[1..][i]).None?;
        assert events[i + 1] == events[1..][i];
      }
    }
  }

  /** The mapped pipeline is the plain pipeline followed by one entity
      translation of each decoded event: mapping happens exactly once, after
      decode and before emit, and a mapped pass delivers events only when
      both stages succeed for every message. */
  lemma MapsOnceAfterDecode<T>(messages: seq<Bytes>, decode: Bytes -> Option<T>, mapEntities: T -> Option<T>)
    ensures ReceivingAndMappingSystem(messages, decode, mapEntities).Success? <==>
              && ReceivingSystem(messages, decode).Success?
              && MapEach(ReceivingSystem(messages, decode).value, mapEntities).Some?
    ensures ReceivingAndMappingSystem(messages, decode, mapEntities).Success? ==>
              ReceivingAndMappingSystem(messages, decode, mapEntities).value
              == MapEach(ReceivingSystem(messages, decode).value, mapEntities).value
  {
    var mapped := ReceivingAndMappingSystem(messages, decode, mapEntities);
    var plain := ReceivingSystem(messages, decode);
    if plain.Success? {
      MapEachPointwise(plain.value, mapEntities);
      if mapped.Success? {
        assert mapped.value == MapEach(plain.value, mapEntities).value;
      }
    }
  }

  /** The receive loop of the four systems: `while let Some(message) =
      client.receive_message(channel)`. It runs only when the client is
      connected; it consumes messages one at a time and stops at the first
      panic, leaving the messages after the offending one in the channel. */
  method DrainChannel<T>(connected: bool, channel: seq<Bytes>, decode: Bytes -> Option<T>,
                         mapEntities: Option<T -> Option<T>>)
    returns (r: Result<seq<T>, ReceiveError>, remaining: seq<Bytes>)
    ensures !connected ==> r == Success([]) && remaining == channel
    ensures connected ==> r == Receive(channel, decode, mapEntities)
    ensures connected && r.Success? ==> remaining == []
    ensures connected && r.Failure? ==>
              r.error.index < |channel| && remaining == channel[r.error.index + 1..]
  {
    remaining := channel;
    if !connected {
      return Success([]), remaining;
    }
    var events: seq<T> := [];
    var consumed := 0;
    while consumed < |channel|
      invariant consumed <= |channel|
      invariant remaining == channel[consumed..]
      invariant Receive(channel[..consumed], decode, mapEntities) == Success(events)
    {
      var message := remaining[0];
      remaining := remaining[1..];
      var processed := Process(decode, mapEntities, message, consumed);
      if processed.Failure? {
        PrefixFailure(channel, consumed, decode, mapEntities);
        return Failure(processed.error), remaining;
      }
      ReceiveSnoc(channel, consumed, decode, mapEntities);
      events := events + [processed.value];
      consumed := consumed + 1;
    }
    assert channel[..consumed] == channel;
    r := Success(events);
  }

  /** Processing one more message successfully extends the emitted events by
      exactly that message's event. */
  lemma ReceiveSnoc<T>(channel: seq<Bytes>, index: nat, decode: Bytes -> Option<T>,
                       mapEntities: Option<T -> Option<T>>)
    requires index < |channel|
    requires Receive(channel[..index], decode, mapEntities).Success?
    requires Process(decode, mapEntities, channel[index], index).Success?
    ensures Receive(channel[..index + 1], decode, mapEntities)
            == Success(Receive(channel[..index], decode, mapEntities).value
                       + [Process(decode, mapEntities, channel[index], index).value])
  {
    assert channel[..index + 1][..index] == channel[..index];
  }

  /** A failure at the first failing message of a prefix is the failure of the
      whole channel. */
  lemma PrefixFailure<T>(channel: seq<Bytes>, index: nat, decode: Bytes -> Option<T>,
                         mapEntities: Option<T -> Option<T>>)
    requires index < |channel|
    requires Receive(channel[..index], decode, mapEntities).Success?
    requires Process(decode, mapEntities, channel[index], index).Failure?
    ensures Receive(channel, decode, mapEntities)
            == Failure(Process(decode, mapEntities, channel[index], index).error)
  {
    var prefix := channel[..index];
    forall i | 0 <= i < index
      ensures Process(decode, mapEntities, channel[i], i).Success?
    {
      assert channel[i] == prefix[i];
    }
  }
}

=== FILE: send_mode.dfy ===
/** The `SendMode` of a `ToClients<T>` envelope and the routing decision taken
    for it: which network action the sending system performs, and whether the
    local-resending system re-emits the payload for the authority's own session. */
module SendModes {

  newtype u8 = x: int | 0 <= x < 0x100
  newtype u64 = x: int | 0 <= x < 0x1_0000_0000_0000_0000

  /** A renet client identifier. */
  type ClientId = u64

  /** A renet channel identifier, allocated once per registered event type. */
  type ChannelId = u8

  /** The identifier that designates the authority's own (local) session.
      Its concrete value is defined in the server module, which is not part of
      this model, so it is left abstract: every result holds for any value. */
  const SERVER_ID: ClientId

  /** Type of server message sending. */
  datatype SendMode =
    | Broadcast
    | BroadcastExcept(except: ClientId)
    | Direct(target: ClientId)

  /** An event that will be sent to client(s). */
  datatype ToClients<T> = ToClients(mode: SendMode, event: T)

  /** What the sending system asks the transport to do with one serialized message. */
  datatype NetAction =
    | NetBroadcast
    | NetBroadcastExcept(except: ClientId)
    | NetSend(target: ClientId)
    | NoSend

  /** The two halves of the decision for one envelope. */
  datatype Dispatch = Dispatch(action: NetAction, local: bool)

  /** The network action the sending system performs for `mode`. */
  function Route(mode: SendMode): (a: NetAction)
    // no network call exactly for a direct send to the local session
    ensures a.NoSend? <==> mode == Direct(SERVER_ID)
    // a plain broadcast comes from Broadcast or from excluding the local session
    ensures a.NetBroadcast? <==> mode.Broadcast? || mode == BroadcastExcept(SERVER_ID)
    // the wire never carries an exclusion of, or a send to, the local session
    ensures a.NetBroadcastExcept? <==> mode.BroadcastExcept? && mode.except != SERVER_ID
    ensures a.NetBroadcastExcept? ==> mode == BroadcastExcept(a.except) && a.except != SERVER_ID
    ensures a.NetSend? <==> mode.Direct? && mode.target != SERVER_ID
    ensures a.NetSend? ==> mode == Direct(a.target) && a.target != SERVER_ID
  {
    match mode
    case Broadcast => NetBroadcast
    case BroadcastExcept(c) => if c == SERVER_ID then NetBroadcast else NetBroadcastExcept(c)
    case Direct(c) => if c != SERVER_ID then NetSend(c) else NoSend
  }

  /** Whether the local-resending system emits the payload as a local event. */
  predicate LoopsBack(mode: SendMode)
    // the local session is re-emitted to exactly when the documented meaning includes it
    ensures LoopsBack(mode) <==> SERVER_ID in Intended(mode, {})
  {
    match mode
    case Broadcast => true
    case BroadcastExcept(c) => c != SERVER_ID
    case Direct(c) => c == SERVER_ID
  }

  /** The full routing decision for `mode`, mode by mode. */
  function Decide(mode: SendMode): (d: Dispatch)
    // Broadcast: a network broadcast, and a local emission
    ensures mode.Broadcast? ==> d == Dispatch(NetBroadcast, true)
    // Excluding the local session degrades to a plain broadcast with no local emission
    ensures mode == BroadcastExcept(SERVER_ID) ==> d == Dispatch(NetBroadcast, false)
    // Excluding a remote client keeps that exclusion on the wire and still emits locally
    ensures mode.BroadcastExcept? && mode.except != SERVER_ID ==>
              d == Dispatch(NetBroadcastExcept(mode.except), true)
    // Direct to the local session never touches the network
    ensures mode == Direct(SERVER_ID) ==> d == Dispatch(NoSend, true)
    // Direct to a remote client is a network send only
    ensures mode.Direct? && mode.target != SERVER_ID ==>
              d == Dispatch(NetSend(mode.target), false)
    // The network never carries a message addressed to, or excluding, the local session
    ensures d.action.NetSend? ==> d.action.target != SERVER_ID
    ensures d.action.NetBroadcastExcept? ==> d.action.except != SERVER_ID
  {
    Dispatch(Route(mode), LoopsBack(mode))
  }

  /** Everyone who can receive an event: the connected remote clients and the
      local session. */
  function Parties(clients: set<ClientId>): set<ClientId>
  {
    clients + {SERVER_ID}
  }

  /** The documented meaning of each mode, stated over parties without any
      reference to the network/loop-back split: a broadcast reaches everyone,
      a broadcast-except reaches everyone but the excluded party, and a direct
      send reaches just its target. */
  function Intended(mode: SendMode, clients: set<ClientId>): set<ClientId>
  {
    match mode
    case Broadcast => Parties(clients)
    case BroadcastExcept(c) => Parties(clients) - {c}
    case Direct(c) => Parties(clients) * {c}
  }

  /** The remote clients the transport hands a message to for `action`: a
      send only reaches a client that is connected. */
  function Delivered(action: NetAction, clients: set<ClientId>): (r: set<ClientId>)
    ensures r <= clients
    ensures action.NetBroadcast? ==> r == clients
    ensures action.NetBroadcastExcept? ==> action.except !in r && r == clients - {action.except}
    ensures action.NetSend? ==> r <= {action.target}
    ensures action.NoSend? ==> r == {}
  {
    match action
    case NetBroadcast => clients
    case NetBroadcastExcept(c) => clients - {c}
    case NetSend(c) => clients * {c}
    case NoSend => {}
  }

  /** Every reception of one envelope, network and local together, counted
      with multiplicity. When the local session is not also a remote client,
      the parties reached are exactly the documented ones, each once. */
  function Receptions(mode: SendMode, clients: set<ClientId>): (m: multiset<ClientId>)
    ensures SERVER_ID !in clients ==>
              forall p :: m[p] == if p in Intended(mode, clients) then 1 else 0
    ensures SERVER_ID !in clients ==> m == multiset(Intended(mode, clients))
  {
    multiset(Delivered(Route(mode), clients))
      + (if LoopsBack(mode) then multiset{SERVER_ID} else multiset{})
  }

  /** The parties one envelope reaches, as a set. */
  function Reached(mode: SendMode, clients: set<ClientId>): (r: set<ClientId>)
    requires SERVER_ID !in clients
    ensures r == Intended(mode, clients)
    ensures mode.Broadcast? ==> r == clients + {SERVER_ID}
    ensures mode.BroadcastExcept? ==> mode.except !in r && r == Parties(clients) - {mode.except}
    ensures mode.Direct? && mode.target in Parties(clients) ==> r == {mode.target}
  {
    Delivered(Route(mode), clients) + (if LoopsBack(mode) then {SERVER_ID} else {})
  }
}

=== FILE: sending.dfy ===
/** The server-side sending systems: every queued `ToClients<T>` envelope is
    serialized once and then handed to the transport according to its mode.
    The transport is modelled as the recorded list of transmissions. */
module Sending {
  import opened Wrappers
  import opened Seqs
  import opened SendModes

  /** A serialized message, as put on the wire. */
  type Bytes = seq<u8>

  /** One call into the transport: the action, the event's channel and the bytes. */
  datatype Transmission = Transmission(action: NetAction, channel: ChannelId, message: Bytes)

  /** Serialization of the envelope at `index` failed; the system panics there. */
  datatype SendError = SerializeFailed(index: nat)

  /** Whether the envelope produces a transport call at all. */
  predicate OnNetwork<T>(env: ToClients<T>)
  {
    Route(env.mode) != NoSend
  }

  /** The bytes the serializer produced for `event`, or nothing if it failed. */
  function Encoded<T>(serialize: T -> Option<Bytes>, event: T): Bytes
  {
    match serialize(event)
    case Some(message) => message
    case None => []
  }

  /** The plain sending system over the queued envelopes, in queue order.
      `serialize` stands for bincode serialization of the payload. */
  function SendingSystem<T>(queue: seq<ToClients<T>>, channel: ChannelId,
                            serialize: T -> Option<Bytes>): (r: Result<seq<Transmission>, SendError>)
    // serialization happens for every envelope, even one that never reaches the network,
    // so the pass succeeds exactly when every payload serializes
    ensures r.Success? <==> forall i :: 0 <= i < |queue| ==> serialize(queue[i].event).Some?
    // a failure names the first envelope that does not serialize
    ensures r.Failure? ==>
              && r.error.index < |queue|
              && serialize(queue[r.error.index].event).None?
              && forall i :: 0 <= i < r.error.index ==> serialize(queue[i].event).Some?
    // no more transmissions than envelopes, all on the event's channel, none of them idle
    ensures r.Success? ==> |r.value| <= |queue|
    ensures r.Success? ==> forall t :: t in r.value ==> t.channel == channel && t.action != NoSend
    decreases |queue|
  {
    if |queue| == 0 then Success([])
    else
      match serialize(queue[0].event)
      case None => Failure(SerializeFailed(0))
      case Some(message) =>
        match SendingSystem(queue[1..], channel, serialize)
        case Failure(e) => Failure(SerializeFailed(e.index + 1))
        case Success(rest) =>
          var action := Route(queue[0].mode);
          Success((if action == NoSend then [] else [Transmission(action, channel, message)]) + rest)
  }

  /** The transmission the sending system issues for a networked envelope. */
  function Transmit<T>(channel: ChannelId, serialize: T -> Option<Bytes>, env: ToClients<T>): Transmission
  {
    Transmission(Route(env.mode), channel, Encoded(serialize, env.event))
  }

  /** A successful pass issues one transmission per networked envelope, in queue
      order, on the event's channel, carrying that envelope's single serialization;
      envelopes addressed only to the local session issue none. */
  lemma {:induction false} SentInQueueOrder<T>(queue: seq<ToClients<T>>, channel: ChannelId,
                                               serialize: T -> Option<Bytes>)
    requires SendingSystem(queue, channel, serialize).Success?
    ensures SendingSystem(queue, channel, serialize).value
            == Map(Filter(queue, OnNetwork), (env: ToClients<T>) => Transmit(channel, serialize, env))
    decreases |queue|
  {
    if |queue| != 0 {
      SentInQueueOrder(queue[1..], channel, serialize);
      var f := (env: ToClients<T>) => Transmit(channel, serialize, env);
      var head := if OnNetwork(queue[0]) then [queue[0]] else [];
      assert Filter(queue, OnNetwork) == head + Filter(queue[1..], OnNetwork);
      MapConcat(head, Filter(queue[1..], OnNetwork), f);
    }
  }

  /** The reflect sending system: the payload is wrapped in a serializer built
      from the type registry before bincode writes it. Routing is a copy of the
      plain system's. */
  function SendingReflectSystem<T, R>(queue: seq<ToClients<T>>, channel: ChannelId, registry: R,
                                      build: (T, R) -> Option<Bytes>): (r: Result<seq<Transmission>, SendError>)
    // the registry-driven serializer runs for every envelope before its mode is examined
    ensures r.Success? <==> forall i :: 0 <= i < |queue| ==> build(queue[i].event, registry).Some?
    ensures r.Failure? ==>
              && r.error.index < |queue|
              && build(queue[r.error.index].event, registry).None?
              && forall i :: 0 <= i < r.error.index ==> build(queue[i].event, registry).Some?
    ensures r.Success? ==> |r.value| <= |queue|
    ensures r.Success? ==> forall t :: t in r.value ==> t.channel == channel && t.action != NoSend
    decreases |queue|
  {
    if |queue| == 0 then Success([])
    else
      match build(queue[0].event, registry)
      case None => Failure(SerializeFailed(0))
      case Some(message) =>
        match SendingReflectSystem(queue[1..], channel, registry, build)
        case Failure(e) => Failure(SerializeFailed(e.index + 1))
        case Success(rest) =>
          var action := Route(queue[0].mode);
          Success((if action == NoSend then [] else [Transmission(action, channel, message)]) + rest)
  }

  /** The reflect path behaves exactly like the plain path whose serializer is
      the registry-driven one. */
  lemma {:induction false} ReflectSendsLikePlain<T, R>(queue: seq<ToClients<T>>, channel: ChannelId,
                                                       registry: R, build: (T, R) -> Option<Bytes>)
    ensures SendingReflectSystem(queue, channel, registry, build)
            == SendingSystem(queue, channel, t => build(t, registry))
    decreases |queue|
  {
    if |queue| != 0 {
      ReflectSendsLikePlain(queue[1..], channel, registry, build);
    }
  }

  /** The transport actions of a list of transmissions. */
  function Actions(ts: seq<Transmission>): seq<NetAction>
  {
    Map(ts, (t: Transmission) => t.action)
  }

  /** Whatever their serializers, the plain and the reflect paths choose the same
      network action for every mode, in the same order. */
  lemma SendPathsAgree<T, R>(queue: seq<ToClients<T>>, channel: ChannelId,
                             serialize: T -> Option<Bytes>, registry: R, build: (T, R) -> Option<Bytes>)
    requires SendingSystem(queue, channel, serialize).Success?
    requires SendingReflectSystem(queue, channel, registry, build).Success?
    ensures Actions(SendingSystem(queue, channel, serialize).value)
            == Actions(SendingReflectSystem(queue, channel, registry, build).value)
            == Map(Filter(queue, OnNetwork), (env: ToClients<T>) => Route(env.mode))
  {
    ReflectSendsLikePlain(queue, channel, registry, build);
    SentInQueueOrder(queue, channel, serialize);
    SentInQueueOrder(queue, channel, t => build(t, registry));
    var sent := Filter(queue, OnNetwork);
    assert Actions(SendingSystem(queue, channel, serialize).value)
           == Map(sent, (env: ToClients<T>) => Route(env.mode));
    assert Actions(SendingSystem(queue, channel, t => build(t, registry)).value)
           == Map(sent, (env: ToClients<T>) => Route(env.mode));
  }

  /** The messages the transmissions hand renet for client `c`, in call order.
      This is the hand-off to the transport, not what `c` ends up receiving:
      the channel's policy decides loss and reordering. */
  function Inbox(ts: seq<Transmission>, clients: set<ClientId>, c: ClientId): seq<Bytes>
    decreases |ts|
  {
    if |ts| == 0 then []
    else (if c in Delivered(ts[0].action, clients) then [ts[0].message] else [])
         + Inbox(ts[1..], clients, c)
  }

  /** Whether the envelope's network action reaches client `c`. */
  predicate SentTo<T>(env: ToClients<T>, clients: set<ClientId>, c: ClientId)
  {
    c in Delivered(Route(env.mode), clients)
  }

  /** The sending pass hands renet, for client `c`, in queue order and once each,
      the serialization of exactly those envelopes whose network action reaches it. */
  lemma {:induction false} InboxOfClient<T>(queue: seq<ToClients<T>>, channel: ChannelId,
                                            serialize: T -> Option<Bytes>,
                                            clients: set<ClientId>, c: ClientId)
    requires SendingSystem(queue, channel, serialize).Success?
    ensures Inbox(SendingSystem(queue, channel, serialize).value, clients, c)
            == Map(Filter(queue, (env: ToClients<T>) => SentTo(env, clients, c)),
                   (env: ToClients<T>) => Encoded(serialize, env.event))
    decreases |queue|
  {
    var p := (env: ToClients<T>) => SentTo(env, clients, c);
    var enc := (env: ToClients<T>) => Encoded(serialize, env.event);
    if |queue| != 0 {
      var rest := SendingSystem(queue[1..], channel, serialize);
      InboxOfClient(queue[1..], channel, serialize, clients, c);
      var action := Route(queue[0].mode);
      var head := if action == NoSend then [] else [Transmission(action, channel, Encoded(serialize, queue[0].event))];
      assert SendingSystem(queue, channel, serialize).value == head + rest.value;
      InboxConcat(head, rest.value, clients, c);
      assert Filter(queue, p) == (if p(queue[0]) then [queue[0]] else []) + Filter(queue[1..], p);
      MapConcat(if p(queue[0]) then [queue[0]] else [], Filter(queue[1..], p), enc);
    }
  }

  /** The inbox of a concatenation is the concatenation of inboxes. */
  lemma {:induction false} InboxConcat(a: seq<Transmission>, b: seq<Transmission>,
                                       clients: set<ClientId>, c: ClientId)
    ensures Inbox(a + b, clients, c) == Inbox(a, clients, c) + Inbox(b, clients, c)
    decreases |a|
  {
    if |a| == 0 {
      assert a + b == b;
    } else {
      assert (a + b)[0] == a[0];
      assert (a + b)[1..] == a[1..] + b;
      InboxConcat(a[1..], b, clients, c);
    }
  }
}

=== FILE: seqs.dfy ===
/** Order-preserving sequence transforms shared by the drain and receive pipelines. */
module Seqs {

  /** The elements of `s` that satisfy `p`, in their original order. */
  function Filter<T>(s: seq<T>, p: T -> bool): (r: seq<T>)
    ensures |r| <= |s|
    ensures forall x :: x in r ==> x in s && p(x)
    ensures forall x :: x in s && p(x) ==> x in r
  {
    if |s| == 0 then []
    else (if p(s[0]) then [s[0]] else []) + Filter(s[1..], p)
  }

  /** `f` applied to every element of `s`, position by position. */
  function Map<A, B>(s: seq<A>, f: A -> B): (r: seq<B>)
    ensures |r| == |s|
    ensures forall i :: 0 <= i < |s| ==> r[i] == f(s[i])
  {
    seq(|s|, i requires 0 <= i < |s| => f(s[i]))
  }

  /** `a` can be obtained from `b` by deleting elements, keeping the order of the rest. */
  ghost predicate IsSubsequence<T>(a: seq<T>, b: seq<T>)
    decreases |b|
  {
    if |a| == 0 then true
    else if |b| == 0 then false
    else if a[0] == b[0] then IsSubsequence(a[1..], b[1..])
    else IsSubsequence(a, b[1..])
  }

  /** Filtering distributes over concatenation: the filter handles each
      element independently and never reorders. */
  lemma {:induction false} FilterConcat<T>(a: seq<T>, b: seq<T>, p: T -> bool)
    ensures Filter(a + b, p) == Filter(a, p) + Filter(b, p)
    decreases |a|
  {
    if |a| == 0 {
      assert a + b == b;
    } else {
      assert (a + b)[0] == a[0];
      assert (a + b)[1..] == a[1..] + b;
      FilterConcat(a[1..], b, p);
    }
  }

  /** The filtered sequence is a subsequence of the original: order is kept. */
  lemma {:induction false} FilterIsSubsequence<T>(s: seq<T>, p: T -> bool)
    ensures IsSubsequence(Filter(s, p), s)
    decreases |s|
  {
    if |s| != 0 {
      FilterIsSubsequence(s[1..], p);
      if p(s[0]) {
        var r := Filter(s, p);
        assert r == [s[0]] + Filter(s[1..], p);
        assert r[0] == s[0] && r[1..] == Filter(s[1..], p);
      } else {
        assert Filter(s, p) == Filter(s[1..], p);
        SkipKeepsSubsequence(Filter(s[1..], p), s);
      }
    }
  }

  /** Dropping the head of the longer sequence is harmless when the shorter one
      is already a subsequence of its tail. */
  lemma {:induction false} SkipKeepsSubsequence<T>(a: seq<T>, b: seq<T>)
    requires |b| > 0
    requires IsSubsequence(a, b[1..])
    ensures IsSubsequence(a, b)
    decreases |b|
  {
    if |a| != 0 && a[0] == b[0] {
      // a[0] is matched somewhere in b[1..]; what follows it is then matched in b[2..]
      SubsequenceTail(a, b[1..]);
      SkipKeepsSubsequence(a[1..], b[1..]);
    }
  }

  /** If `a` is a non-empty subsequence of `b`, its tail is a subsequence of `b`'s tail. */
  lemma {:induction false} SubsequenceTail<T>(a: seq<T>, b: seq<T>)
    requires |a| > 0
    requires IsSubsequence(a, b)
    ensures |b| > 0 && IsSubsequence(a[1..], b[1..])
    decreases |b|
  {
    if a[0] != b[0] {
      SubsequenceTail(a, b[1..]);
      SkipKeepsSubsequence(a[1..], b[1..]);
    }
  }

  /** Filtering keeps every occurrence of an element it accepts and drops every
      occurrence of one it rejects: nothing is duplicated or lost. */
  lemma {:induction false} FilterCount<T>(s: seq<T>, p: T -> bool, x: T)
    ensures multiset(Filter(s, p))[x] == if p(x) then multiset(s)[x] else 0
    decreases |s|
  {
    if |s| != 0 {
      FilterCount(s[1..], p, x);
      assert s == [s[0]] + s[1..];
      assert multiset(s) == multiset([s[0]]) + multiset(s[1..]);
    }
  }

  /** Mapping distributes over concatenation. */
  lemma MapConcat<A, B>(a: seq<A>, b: seq<A>, f: A -> B)
    ensures Map(a + b, f) == Map(a, f) + Map(b, f)
  {
  }

  /** Filtering with two predicates that agree on every element gives the same result. */
  lemma {:induction false} FilterCongruent<T>(s: seq<T>, p: T -> bool, q: T -> bool)
    requires forall i :: 0 <= i < |s| ==> p(s[i]) == q(s[i])
    ensures Filter(s, p) == Filter(s, q)
    decreases |s|
  {
    if |s| != 0 {
      FilterCongruent(s[1..], p, q);
    }
  }

  /** Mapping both sides keeps a subsequence a subsequence. */
  lemma {:induction false} MapKeepsSubsequence<A, B>(a: seq<A>, b: seq<A>, f: A -> B)
    requires IsSubsequence(a, b)
    ensures IsSubsequence(Map(a, f), Map(b, f))
    decreases |b|
  {
    if |a| != 0 {
      var ma, mb := Map(a, f), Map(b, f);
      assert ma[1..] == Map(a[1..], f);
      assert mb[1..] == Map(b[1..], f);
      if a[0] == b[0] {
        MapKeepsSubsequence(a[1..], b[1..], f);
      } else {
        MapKeepsSubsequence(a, b[1..], f);
        SkipKeepsSubsequence(ma, mb);
      }
    }
  }
}

=== FILE: server_send.dfy ===
/** The server's send set: the sending system, gated on the server resource
    existing, chained before the local-resending system, gated on the app
    having authority. Both read the same `ToClients<T>` queue. */
module ServerSend {
  import opened Wrappers
  import opened Seqs
  import opened SendModes
  import opened Sending
  import opened LocalResending

  /** One run of the chained pair over the queued envelopes. `serverExists`
      and `hasAuthority` are the two run conditions. A serialization panic in
      the sending system stops the pass before the local resend runs. */
  method SendSet<T>(queue: seq<ToClients<T>>, channel: ChannelId, serialize: T -> Option<Bytes>,
                    serverExists: bool, hasAuthority: bool)
    returns (sent: Result<seq<Transmission>, SendError>, local: seq<T>, remaining: seq<ToClients<T>>)
    // no server resource: nothing reaches the network
    ensures !serverExists ==> sent == Success([])
    ensures serverExists ==> sent == SendingSystem(queue, channel, serialize)
    // loop-back runs after a successful send pass and drains the queue
    ensures sent.Success? && hasAuthority ==> local == LoopedBack(queue) && remaining == []
    // without authority nothing is emitted locally and the queue is left alone
    ensures !hasAuthority || sent.Failure? ==> local == [] && remaining == queue
  {
    sent := if serverExists then SendingSystem(queue, channel, serialize) else Success([]);
    local, remaining := [], queue;
    if sent.Success? && hasAuthority {
      local, remaining := LocalResendingSystem(queue);
    }
  }

  /** For a remote client, being reached by the network action is the same as
      being included by the documented meaning of the mode. */
  lemma RemoteReachedAsIntended(mode: SendMode, clients: set<ClientId>, c: ClientId)
    requires SERVER_ID !in clients
    requires c in clients
    ensures c in Delivered(Route(mode), clients) <==> c in Intended(mode, clients)
  {
  }

  /** Across both systems: for each connected client, the sending pass hands
      renet, in queue order and once each, the serialization of exactly the
      envelopes whose mode includes it; the local session is emitted, in queue
      order and once each, exactly the payloads whose mode includes it. */
  lemma EveryPartyGetsItsEvents<T>(queue: seq<ToClients<T>>, channel: ChannelId,
                                   serialize: T -> Option<Bytes>, clients: set<ClientId>, c: ClientId)
    requires SERVER_ID !in clients
    requires c in clients
    requires SendingSystem(queue, channel, serialize).Success?
    ensures Inbox(SendingSystem(queue, channel, serialize).value, clients, c)
            == Map(Filter(queue, (env: ToClients<T>) => c in Intended(env.mode, clients)),
                   (env: ToClients<T>) => Encoded(serialize, env.event))
    ensures LoopedBack(queue)
            == Map(Filter(queue, (env: ToClients<T>) => SERVER_ID in Intended(env.mode, clients)), Payload)
  {
    InboxOfClient(queue, channel, serialize, clients, c);
    forall i | 0 <= i < |queue|
      ensures SentTo(queue[i], clients, c) == (c in Intended(queue[i].mode, clients))
    {
      RemoteReachedAsIntended(queue[i].mode, clients, c);
    }
    FilterCongruent(queue, (env: ToClients<T>) => SentTo(env, clients, c),
                    (env: ToClients<T>) => c in Intended(env.mode, clients));
    FilterCongruent(queue, TargetsLocal,
                    (env: ToClients<T>) => SERVER_ID in Intended(env.mode, clients));
  }
}

=== FILE: wrappers.dfy ===
/** Failure-compatible wrappers used throughout the model. */
module Wrappers {

  /** A value that may be missing: the result of a partial operation such as
      decoding a message or translating an entity reference. */
  datatype Option<+T> = None | Some(value: T)

  /** Either a value or the reason the computation aborted. The modelled
      systems abort (panic) on a decode, serialization or mapping failure;
      `Failure` records which item caused it. */
  datatype Result<+R, +E> = Success(value: R) | Failure(error: E)
}
